=== FILE: README.md ===
# RFP Copilot digital worker: the deterministic core, in Dafny

The digital worker drafts answers to Requests for Proposals (RFPs). An LLM agent
calls three tools. `extract_requirements` turns the RFP text into a structured
record. `search_knowledge` retrieves cited snippets from a vector store of past
proposals and compliance rules. `generate_response` drafts the answer. Around
these calls, `run_with_audit` records an audit entry: the tools called and the
sources cited. A separate script, `load_knowledge_base`, builds the vector
store's corpus by tagging every knowledge file's documents with where they came
from.

This project models the deterministic logic that carries data between those
stages:

- `Search` (search.dfy): the citation serialiser. Each retrieved document
  becomes a block `"[source | category]\nsnippet\n"`. The snippet is cut to 500
  characters, a missing metadata key reads "unknown", and blocks are joined by
  `"\n---\n"`. No documents give the sentinel "No relevant knowledge found.".
  The method `SearchKnowledge` is the tool's loop.
- `Audit` (audit.dfy): the audit builder and the citation parser. The method
  `RunWithAudit` is the loop over the agent's intermediate steps. The functions
  `CitedSource`, `SourcesIn` and `ExtractSources` are the list comprehension
  that parses source names back out of a search result. The headline lemma,
  `CitationRoundTrip`, proves that parsing the serialiser's output recovers the
  retrieved sources exactly, in order. Two lemmas show that neither of its
  restrictions can be dropped.
- `Generate` (generate.dfy): the input guard of `generate_response`. It covers
  normalising the requirements argument, the empty-requirements short circuit,
  the context default, and turning an exception into a string.
- `Extract` (extract.dfy): the seven-field requirements schema, truncating the
  input to 10000 characters, and the error fallback that keeps 500 characters.
- `Corpus` (corpus.dfy): `load_knowledge_base`. Each document is a `class`
  whose metadata is updated in place with `source`, `category` and
  `file_path`. The documents are collected file by file.
- `Pipeline` (pipeline.dfy): facts across stages. An extraction result always
  reaches the drafting chain. When every search's sources are citable and no
  block holds the separator, the audit of a run of searches cites their
  sources in order, and duplicates are kept.
- `Text` (text.dfy): the Python string and list operations used above, each
  modelled as Python defines it: `s[:n]`, `str.split`, `str.join`,
  `split(sep)[0]` and repeated `extend`. Includes both split/join round trips.
- `Wrappers` and `JsonValue`: `Option`, the outcome of a call that may raise,
  decoded JSON values, and Python truthiness.

External capabilities are parameters of the model:

- the LLM chains and the structured extractor are functions returning an
  `Outcome` (a value, or an exception message);
- `json.loads` is a function returning an `Option` (no value for text it
  rejects);
- the retriever is the vector store's ranking, of which the first `k = 5`
  entries are kept;
- the knowledge tree is a given list of files, each with its path and the
  document objects its loader produced.

The header delimiter is the three characters space, vertical bar, space that
separate source and category in a block's header. The citation parser is
modelled exactly as written. `line.split("[")[1]` ends
at the next `[` as well as at `]`, and the cut at the header delimiter is at its
first occurrence. So the round trip needs three things of each source: it holds no
`[`, it holds no `]`, and the first header delimiter after it is the one
the header adds (`CitableSource`). It is proved under the further condition
that no block contains the separator.

Two behaviours of the code are easy to mistake, and the model follows the
code in both:

- Generation does not stop when extraction degraded to its error dictionary.
  That dictionary is never empty, and the guard stops only an empty (falsy)
  value. `Pipeline.ExtractionReachesChain`
  proves that every extraction result, the fallback included, reaches the
  drafting chain.
- The cited sources are not a set. The code keeps a list, in step order, with
  duplicates (`Pipeline.RepeatedSearchCitedTwice`).

## Model

| member | source | states |
|---|---|---|
| Search.MetadataOr | tools/search.py:27-28 | a key present in the metadata gives its value; an absent key gives "unknown" |
| Search.Snippet | tools/search.py:29 | the snippet is a prefix of the page content, of length min(length, 500) |
| Search.Block | tools/search.py:30 | a block is as long as source, category and snippet plus the seven fixed characters, opens with '[' and ends with a newline |
| Search.Serialise | tools/search.py:32 | the result is the sentinel "No relevant knowledge found." exactly when no document was retrieved |
| Search.SearchKnowledge | tools/search.py:22-32 | the loop's result is the serialisation of the first 5 ranked documents, and it is the sentinel exactly when the ranking is empty |
| Search.BlocksInOrder | tools/search.py:26-32 | splitting the result at "\n---\n" gives back the blocks, one per document, in retriever order, with no empty piece before the first or after the last, when at least one document was retrieved and no block contains the separator |
| Search.AtMostKBlocks | tools/search.py:22 | for a non-empty ranking whose blocks hold no "\n---\n", the result splits into min(ranking length, 5) blocks |
| Text.Take | tools/search.py:29 | `s[:n]` is a prefix of `s` of length min(length, n) |
| Text.Split | agent.py:71 | `s.split(sep)` has at least one piece |
| Text.SplitWhole | agent.py:71 | `s.split(sep)` has exactly one piece when `sep` does not occur in `s`, and it is then `[s]`; otherwise there are at least two |
| Text.Join | tools/search.py:32 | a join of parts whose first part is non-empty opens with that part's first character |
| Text.JoinEnds | tools/search.py:32 | a join opens with its first part and ends with its last |
| Text.Before | agent.py:71 | `s.split(sep)[0]` is a prefix of `s`, holds no match of `sep` before its end, and is followed by `sep` or by the end of `s` |
| Text.BeforeIsFirstPiece | agent.py:71 | `split(sep)[0]` is the first piece of `split(sep)` |
| Text.SplitJoin | tools/search.py:32 | splitting a join at its separator gives the parts back when there is at least one part and each part is separable |
| Text.JoinSplit | agent.py:71 | joining the pieces of a split with the same separator rebuilds the text |
| Text.SplitAtChar | agent.py:71 | `line.split("[")` of a line holding '[' has a second piece; it holds no '[', and for a line opening with '[' it is what precedes the next '[' |
| Audit.CitedSource | agent.py:71 | the source parsed from one line holds no '[', no ']' and no header delimiter |
| Audit.SourcesIn | agent.py:71-72 | there are no more sources than lines, and no source holds '[' or ']' |
| Audit.ExtractSources | agent.py:71-72 | the sources parsed from a tool output hold no brackets |
| Audit.StepsOf | agent.py:64-65 | a result without intermediate steps gives no steps; otherwise its steps, as reported |
| Audit.StepSources | agent.py:69-73 | a step whose recorded name is not "search_knowledge" adds no sources, and no source added holds '[' or ']' |
| Audit.ToolName | agent.py:66 | the recorded name is never empty; it is the step's tool when that is non-empty, and "unknown" when it is empty |
| Audit.RunWithAudit | agent.py:53-73 | one tool-call entry per step, in step order, each the step's tool name or "unknown"; the cited sources are the in-order concatenation of every search step's parsed sources; no steps give empty lists; the input length and the final output are recorded, and the output returned is the agent's |
| Audit.CitationsStep | agent.py:73 | citing one more step appends that step's sources to those cited so far |
| Audit.CitationsSnoc | agent.py:73 | the cited sources of a run with a last step appended are the earlier ones followed by that step's |
| Audit.CitationsSingle | agent.py:69-73 | a run of one step cites exactly that step's sources |
| Audit.CitationsAppend | agent.py:73 | the cited sources of two consecutive runs of steps are concatenated |
| Audit.OnlySearchStepsCite | agent.py:69-73 | steps of other tools add nothing: a run without search steps cites nothing |
| Audit.CitedSourceOfHeader | agent.py:71 | a line opening with '[', then `src`, then the header delimiter, names `src` whenever `src` is citable |
| Audit.BarFreeIsCitable | agent.py:71 | a source holding no '[', no ']' and no vertical bar is citable |
| Audit.SourcesOfBlocks | agent.py:71-72 | when every document's source is citable, the header lines of the blocks name the documents' sources, in order |
| Audit.SingleLineWithoutBracket | agent.py:71-72 | a one-line output holding no '[' cites nothing |
| Audit.SentinelCitesNothing | agent.py:71-72 | the "No relevant knowledge found." sentinel cites nothing |
| Audit.CitationRoundTrip | agent.py:71-72 | parsing the search tool's result gives exactly the sources of the retrieved documents, in order, duplicates kept, when every source is citable and no block holds "\n---\n"; no documents give no citations |
| Audit.HeaderLineCites | agent.py:71-72 | a one-line output opening with a header cites exactly the header's source, when that source is citable and neither it nor the rest of the line holds '-' |
| Audit.TwoHeaderLinesCite | agent.py:71-72 | two header lines joined by the separator cite both sources, in order, when both sources are citable and neither the sources nor the rest of either line holds '-' |
| Audit.SeparatorInSnippetAddsCitation | agent.py:71-72 | a snippet holding "\n---\n" followed by a header-like line makes the parser cite two names for one retrieved document: its source, then the name in that line, when both names are citable, the page content fits in 500 characters, and none of the source, the category, the text around the separator or the name holds '-' |
| Audit.TrailingBarIsCut | agent.py:71 | a source ending in a space and a vertical bar holds no header delimiter, yet it is cited without that ending |
| JsonValue.Truthy | tools/generate.py:48 | a value is falsy exactly when it is `None`, `False`, `0`, `""`, `[]` or `{}` |
| Generate.InvalidFormat | tools/generate.py:45-46 | the error dictionary has exactly the keys "error" and "raw"; "error" is "Invalid requirements format"; "raw" is a prefix of the argument, at most 200 characters long, and the whole argument when that is short enough |
| Generate.Normalise | tools/generate.py:42-46 | a dictionary passes through; a string is replaced by what `json.loads` makes of it; any other argument becomes `{}`; an unparseable string becomes a truthy value |
| Generate.DefaultContext | tools/generate.py:52 | the context is never empty: a non-empty context is kept, and an empty or missing one becomes "No context provided." |
| Generate.ChainRequest | tools/generate.py:48-60 | the chain is built exactly when the normalised requirements are truthy, and it then receives them with the defaulted context and the template |
| Generate.GenerateResponse | tools/generate.py:41-63 | falsy requirements give the fixed error message; otherwise the chain's text is returned, or "Generation failed: " followed by the exception's message |
| Generate.EmptyDictShortCircuits | tools/generate.py:48-49 | an empty dictionary gives the fixed error message and the chain is not built, whatever the chain would do |
| Generate.OtherArgShortCircuits | tools/generate.py:42-48 | an argument that is neither a dictionary nor a string meets the same guard |
| Generate.FalsyParseShortCircuits | tools/generate.py:44-49 | a string that parses to a falsy value meets the same guard |
| Generate.UnparseableProceeds | tools/generate.py:45-46 | an unparseable string is not stopped: the chain receives the error dictionary, whose raw text is a prefix of at most 200 characters |
| Generate.DictPassesThrough | tools/generate.py:42 | a non-empty dictionary reaches the chain unchanged |
| Extract.Strings | tools/extract.py:16 | the list of key requirements becomes a JSON array of as many strings, in order |
| Extract.ToDict | tools/extract.py:9-16 | the success dictionary has exactly the seven schema fields |
| Extract.ExtractorInput | tools/extract.py:35 | the extractor sees a prefix of the RFP text of at most 10000 characters, the whole text when it is short enough |
| Extract.Fallback | tools/extract.py:37-38 | the failure dictionary has exactly the keys "error" and "raw_text"; "error" holds the message; "raw_text" is a prefix of the text of length min(length, 500) |
| Extract.ExtractRequirements | tools/extract.py:34-38 | the result has either the seven schema fields or the two fallback keys: the extractor's record on success, the fallback when it raises |
| Extract.SevenFields | tools/extract.py:9-16 | the schema has exactly seven fields |
| Extract.NeverEmpty | tools/extract.py:38 | whatever the extractor does, the result is never empty |
| Extract.StringsInjective | tools/extract.py:16 | distinct lists of key requirements give distinct JSON arrays |
| Extract.ToDictInjective | tools/extract.py:36 | no field is lost: distinct records give distinct dictionaries |
| Extract.OnlyPrefixMatters | tools/extract.py:35-38 | two texts that agree on their first 10000 characters get the same result, success or fallback |
| Corpus.Name | rag/build_vectorstore.py:30 | the source is the path's final component |
| Corpus.ParentName | rag/build_vectorstore.py:29 | the category is the name of the directory holding the file |
| Corpus.PathString | rag/build_vectorstore.py:36 | `str(path)` opens with the first component followed by "/", when there are two or more, and ends with the file's name |
| Corpus.IsKnowledgeTxt | rag/build_vectorstore.py:22-24 | a matching path's string opens with "knowledge/" and ends with ".txt" |
| Corpus.Provenance | rag/build_vectorstore.py:33-37 | the update writes exactly the keys "source", "category" and "file_path" |
| Corpus.Tagged | rag/build_vectorstore.py:33-37 | after the update, the metadata holds the old keys plus the three; the three are set from the path, and every other entry is kept |
| Corpus.Document.constructor | rag/build_vectorstore.py:25-26 | a loaded document starts with the loader's metadata and text |
| Corpus.TxtFiles | rag/build_vectorstore.py:24 | the files visited are among the given files, and each is a `.txt` file below `knowledge/` |
| Corpus.TxtFilesSound | rag/build_vectorstore.py:24 | every file visited is one of the files of the tree |
| Corpus.TxtFilesComplete | rag/build_vectorstore.py:24 | every `.txt` file below `knowledge/` is visited |
| Corpus.TagFile | rag/build_vectorstore.py:29-37 | every document of the file has its metadata updated with the file's provenance, and nothing else changes |
| Corpus.TagAndCollect | rag/build_vectorstore.py:24-38 | the result is the in-order concatenation of the files' document lists, and each document is tagged with its own file's provenance |
| Corpus.LoadKnowledgeBase | rag/build_vectorstore.py:20-40 | the result lists the documents of the `.txt` files below `knowledge/`, file by file; each is tagged with its file's provenance; documents of other files are untouched |
| Corpus.ConcatStep | rag/build_vectorstore.py:38 | extending by the next file's documents continues the concatenation |
| Corpus.ConcatCount | rag/build_vectorstore.py:38 | the number of documents collected is the sum of the per-file counts |
| Corpus.OnlyKnowledgeTxtContributes | rag/build_vectorstore.py:22-24 | every collected document was loaded from a `.txt` file below `knowledge/` |
| Corpus.ChunkConfigValid | rag/build_vectorstore.py:15-16 | the chunk overlap is positive and smaller than the chunk size |
| Pipeline.ExtractionReachesChain | tools/generate.py:48 | every extraction result, the error fallback included, passes the empty-requirements guard, so the drafting chain is invoked with it |
| Pipeline.SearchStep | agent.py:69 | a search step is recorded under the name "search_knowledge" |
| Pipeline.SearchRunsCited | agent.py:64-73 | a run made of search steps cites, search by search and in order, the sources each search returned, when every search's sources are citable and none of its blocks holds "\n---\n" |
| Pipeline.TaggedDocumentCitesItsFile | rag/build_vectorstore.py:29-37 | a document tagged from a file renders a block whose header names the file and its directory, and the audit cites the file's name for it when that name is citable and the block holds no "\n---\n" |
| Pipeline.RepeatedSearchCitedTwice | agent.py:73 | the same search made twice is cited twice: duplicates are kept |

## Left out

- LLM calls (the agent executor, the extraction chain, the drafting chain), the embedder and FAISS. They are opaque and nondeterministic, so they are parameters of the model. The order extract, search, generate is only asked for by the agent's prompt and is not modelled as a guarantee.
- The search query and ranking. `SearchKnowledge` takes the vector store's ranking as given. The model does not claim which documents rank highest.
- `json.loads` and `json.dumps`. Parsing is a parameter. The chain receives the normalised JSON value instead of its `json.dumps` text.
- JSON numbers as Python ints versus floats, and NaN/Infinity. Numbers are reals.
- Python's `str(requirements)` in the error branch of `generate_response`. That branch is only reached for a string argument, where `str` is the identity.
- The run identifier, the timestamp and the float duration of the audit entry (clock reads), the console output, and the append to `audit_log.jsonl`.
- Reading the response template file. The template is a parameter.
- The order in which `rglob` yields files, and how `TextLoader` reads them. The file list and each file's loaded documents are inputs. A directory whose name ends in `.txt` is not modelled.
- Corpus.LoadKnowledgeBase: requires that no document object appears twice among the loaded lists, since every load creates new objects.
- Text splitting into chunks, embedding, and building and saving the FAISS index. Of `build_faiss_index`, only the chunk-size constants are modelled.
- Whether the executor reports intermediate steps. This is an input (`AgentResult.intermediateSteps`), and both cases are modelled (`Audit.StepsOf`). The executor at agent.py:37 is built without `return_intermediate_steps=True`. Under LangChain's default its result then has no `intermediate_steps` key, so as configured the audit records no tool calls and no cited sources.
- The Streamlit UI (`app.py`) and the S3 download of the vector store.

=== FILE: audit.dfy ===
/** The audit trail built by `run_with_audit` (agent.py): the names of the
    tools the agent called, in order, and the sources cited by every
    `search_knowledge` result, parsed back out of its text. */
module Audit {
  import opened Wrappers
  import opened Text
  import opened Search

  const SEARCH_TOOL := "search_knowledge"
  const UNKNOWN_TOOL := "unknown"
  const HEADER_DELIMITER := " | "

  /** One intermediate step of the agent run: the tool the agent asked for
      and the text that tool returned. */
  datatype Step = Step(tool: string, observation: string)

  /** What the agent executor hands back. The intermediate steps are a key
      of its result dictionary that may be absent. */
  datatype AgentResult = AgentResult(output: string, intermediateSteps: Option<seq<Step>>)

  /** The audit entry, less its run identifier, timestamp and duration. */
  datatype AuditRecord = AuditRecord(
    inputLength: nat,
    toolCalls: seq<string>,
    sourcesCited: seq<string>,
    finalOutput: string)

  /** A source name that survives the trip through a block header: no brackets,
      and the first " | " after it is the one the header puts there. */
  predicate CitableSource(src: string)
  {
    '[' !in src && ']' !in src && Separable(src, HEADER_DELIMITER)
  }

  /** The source one citation line names: the text after its first '[' (and
      before any further '['), up to the first ']', then up to the first " | ". */
  function CitedSource(line: string): (src: string)
    requires '[' in line
    ensures '[' !in src && ']' !in src && !Occurs(src, HEADER_DELIMITER)
  {
    SplitAtChar(line, '[');
    var afterBracket := Split(line, "[")[1];
    var inBrackets := Before(afterBracket, "]");
    BeforeHasNoSeparator(afterBracket, "]");
    OccursChar(inBrackets, ']');
    BeforeHasNoSeparator(inBrackets, HEADER_DELIMITER);
    Before(inBrackets, HEADER_DELIMITER)
  }

  /** The list comprehension over the lines of one tool output: every line
      holding a '[' contributes the source it names, in order; others nothing. */
  function SourcesIn(lines: seq<string>): (srcs: seq<string>)
    ensures |srcs| <= |lines|
    ensures forall i :: 0 <= i < |srcs| ==> '[' !in srcs[i] && ']' !in srcs[i]
  {
    if |lines| == 0 then []
    else (if '[' in lines[0] then [CitedSource(lines[0])] else []) + SourcesIn(lines[1..])
  }

  /** The sources cited by one `search_knowledge` result. */
  function ExtractSources(output: string): (srcs: seq<string>)
    ensures forall i :: 0 <= i < |srcs| ==> '[' !in srcs[i] && ']' !in srcs[i]
  {
    SourcesIn(Split(output, SEPARATOR))
  }

  /** The name recorded for a step; an empty tool name is recorded as "unknown". */
  function ToolName(step: Step): (name: string)
    ensures name != ""
    ensures step.tool != "" ==> name == step.tool
    ensures step.tool == "" ==> name == UNKNOWN_TOOL
  {
    if step.tool != "" then step.tool else UNKNOWN_TOOL
  }

  /** What one step adds to the cited sources: only search steps add anything. */
  function StepSources(step: Step): (srcs: seq<string>)
    ensures ToolName(step) != SEARCH_TOOL ==> srcs == []
    ensures forall i :: 0 <= i < |srcs| ==> '[' !in srcs[i] && ']' !in srcs[i]
  {
    if ToolName(step) == SEARCH_TOOL then ExtractSources(step.observation) else []
  }

  /** The cited sources of a run: each step's contribution, in step order,
      duplicates kept. */
  function Citations(steps: seq<Step>): seq<string>
  {
    Concat(PerStep(steps))
  }

  /** Each step's contribution, step by step. */
  function PerStep(steps: seq<Step>): (per: seq<seq<string>>)
    ensures |per| == |steps|
    ensures forall i :: 0 <= i < |steps| ==> per[i] == StepSources(steps[i])
  {
    seq(|steps|, i requires 0 <= i < |steps| => StepSources(steps[i]))
  }

  /** The steps of a run; none when the executor did not report them. */
  function StepsOf(result: AgentResult): (steps: seq<Step>)
    ensures result.intermediateSteps.None? ==> steps == []
    ensures result.intermediateSteps.Some? ==> steps == result.intermediateSteps.value
  {
    match result.intermediateSteps
    case None => []
    case Some(steps) => steps
  }

  /** The audit-building part of `run_with_audit`, after the agent has run:
      one tool-call entry per step, in order; the cited sources of all search
      steps; the input length; and the output, which is also returned. */
  method RunWithAudit(rfpText: string, result: AgentResult) returns (output: string, audit: AuditRecord)
    ensures output == result.output && audit.finalOutput == output
    ensures audit.inputLength == |rfpText|
    ensures |audit.toolCalls| == |StepsOf(result)|
    ensures forall i :: 0 <= i < |StepsOf(result)| ==> audit.toolCalls[i] == ToolName(StepsOf(result)[i])
    ensures audit.sourcesCited == Citations(StepsOf(result))
  {
    var toolCalls: seq<string> := [];
    var sourcesCited: seq<string> := [];
    if result.intermediateSteps.Some? {
      var steps := result.intermediateSteps.value;
      for i := 0 to |steps|
        invariant Recorded(toolCalls, steps[..i])
        invariant sourcesCited == Citations(steps[..i])
      {
        var step := steps[i];
        var toolName := if step.tool != "" then step.tool else UNKNOWN_TOOL;
        assert toolName == ToolName(steps[i]);
        ghost var called := toolCalls;
        toolCalls := toolCalls + [toolName];
        RecordedStep(called, steps, i);
        ghost var cited := sourcesCited;
        if toolName == SEARCH_TOOL {
          var sources := ExtractSources(step.observation);
          sourcesCited := sourcesCited + sources;
        }
        assert sourcesCited == cited + StepSources(steps[i]);
        CitationsStep(steps, i);
      }
      assert steps[..|steps|] == steps;
    }
    assert Recorded(toolCalls, StepsOf(result));
    output := result.output;
    audit := AuditRecord(|rfpText|, toolCalls, sourcesCited, output);
  }

  /** `toolCalls` holds one entry per step, the step's recorded name. */
  ghost predicate Recorded(toolCalls: seq<string>, steps: seq<Step>)
  {
    |toolCalls| == |steps| && forall j :: 0 <= j < |steps| ==> toolCalls[j] == ToolName(steps[j])
  }

  /** Recording one more step keeps the tool calls in step. */
  lemma RecordedStep(called: seq<string>, steps: seq<Step>, i: nat)
    requires i < |steps| && Recorded(called, steps[..i])
    ensures Recorded(called + [ToolName(steps[i])], steps[..i + 1])
  {
  }

  /** Citing one more step appends that step's contribution. */
  lemma CitationsStep(steps: seq<Step>, i: nat)
    requires i < |steps|
    ensures Citations(steps[..i + 1]) == Citations(steps[..i]) + StepSources(steps[i])
  {
    assert steps[..i + 1] == steps[..i] + [steps[i]];
    CitationsSnoc(steps[..i], steps[i]);
  }

  /** Any line that starts with a header "[src | ..." names `src`, when `src` is citable. */
  lemma CitedSourceOfHeader(src: string, rest: string)
    requires CitableSource(src)
    ensures '[' in "[" + src + HEADER_DELIMITER + rest
    ensures CitedSource("[" + src + HEADER_DELIMITER + rest) == src
  {
    var line := "[" + src + HEADER_DELIMITER + rest;
    assert line[0] == '[';
    SplitAtChar(line, '[');
    var q := src + HEADER_DELIMITER;
    assert line[1..] == q + rest;
    assert line[1..][..|q|] == q;
    BeforeKeepsPrefix(line[1..], q, '[');
    var afterBracket := Before(line[1..], "[");
    BeforeKeepsPrefix(afterBracket, q, ']');
    var inBrackets := Before(afterBracket, "]");
    BeforeAtSeparator(inBrackets, src, HEADER_DELIMITER);
  }

  /** A source without brackets or '|' is citable. */
  lemma BarFreeIsCitable(src: string)
    requires '[' !in src && ']' !in src && '|' !in src
    ensures CitableSource(src)
  {
    var t := src + HEADER_DELIMITER;
    forall j: nat | j < |src|
      ensures !MatchAt(t, HEADER_DELIMITER, j)
    {
      if j + 3 <= |t| {
        assert t[j..j + 3][1] == t[j + 1] != '|';
      }
    }
  }

  /** Each block's line names the block's source. */
  lemma {:induction false} SourcesOfBlocks(docs: seq<RetrievedDocument>)
    requires forall i :: 0 <= i < |docs| ==> CitableSource(SourceOf(docs[i]))
    ensures SourcesIn(Blocks(docs)) == Sources(docs)
  {
    if |docs| > 0 {
      var d, bs := docs[0], Blocks(docs);
      var rest := CategoryOf(d) + "]\n" + Snippet(d) + "\n";
      BlockHeader(d);
      CitedSourceOfHeader(SourceOf(d), rest);
      assert bs[0] == Block(d);
      assert SourcesIn(bs) == [CitedSource(bs[0])] + SourcesIn(bs[1..]);
      BlocksTail(docs);
      SourcesOfBlocks(docs[1..]);
      SourcesCons(docs);
    }
  }

  /** The blocks after the first are the blocks of the other documents. */
  lemma BlocksTail(docs: seq<RetrievedDocument>)
    requires |docs| > 0
    ensures Blocks(docs)[1..] == Blocks(docs[1..])
  {
    var bs, rs := Blocks(docs)[1..], Blocks(docs[1..]);
    forall k | 0 <= k < |bs|
      ensures bs[k] == rs[k]
    {
      assert docs[1..][k] == docs[k + 1];
    }
  }

  /** A block is its header line "[src | " followed by the rest of the block. */
  lemma BlockHeader(d: RetrievedDocument)
    ensures Block(d) == "[" + SourceOf(d) + HEADER_DELIMITER + (CategoryOf(d) + "]\n" + Snippet(d) + "\n")
  {
  }

  /** The sources of a non-empty list: the first document's, then the others'. */
  lemma SourcesCons(docs: seq<RetrievedDocument>)
    requires |docs| > 0
    ensures Sources(docs) == [SourceOf(docs[0])] + Sources(docs[1..])
  {
  }

  /** The "No relevant knowledge found." sentinel yields no citations. */
  lemma SentinelCitesNothing()
    ensures ExtractSources(NO_KNOWLEDGE) == []
  {
    SingleLineWithoutBracket(NO_KNOWLEDGE);
  }

  /** A tool output on one line and without '[' cites nothing. */
  lemma SingleLineWithoutBracket(output: string)
    requires '\n' !in output && '[' !in output
    ensures ExtractSources(output) == []
  {
    NoMatchWithoutFirstChar(output, SEPARATOR);
    assert Split(output, SEPARATOR) == [output];
  }

  /** Round trip: parsing the search tool's result recovers exactly the sources
      of the retrieved documents, in order, duplicates kept; for no documents
      the sentinel yields no citations. It needs every source citable and no
      block containing the separator. */
  lemma CitationRoundTrip(docs: seq<RetrievedDocument>)
    requires forall i :: 0 <= i < |docs| ==> CitableSource(SourceOf(docs[i]))
    requires forall i :: 0 <= i < |docs| ==> !Occurs(Block(docs[i]), SEPARATOR)
    ensures ExtractSources(Serialise(docs)) == Sources(docs)
  {
    if |docs| == 0 {
      SentinelCitesNothing();
    } else {
      BlocksInOrder(docs);
      SourcesOfBlocks(docs);
    }
  }

  /** A header line without '-' is separable at the block separator. */
  lemma DashFreeHeader(src: string, rest: string)
    requires '-' !in src && '-' !in rest
    ensures Separable("[" + src + HEADER_DELIMITER + rest, SEPARATOR)
  {
    var line := "[" + src + HEADER_DELIMITER + rest;
    forall i | 0 <= i < |line|
      ensures line[i] != '-'
    {
      if i >= 1 + |src| + 3 {
        assert line[i] == rest[i - (1 + |src| + 3)];
      } else if 1 <= i < 1 + |src| {
        assert line[i] == src[i - 1];
      }
    }
    DashFreeIsSeparable(line);
  }

  /** Two lines holding '[' name one source each. */
  lemma SourcesInTwo(line: string, line': string)
    requires '[' in line && '[' in line'
    ensures SourcesIn([line, line']) == [CitedSource(line), CitedSource(line')]
  {
    assert [line, line'][1..] == [line'];
    assert SourcesIn([line']) == [CitedSource(line')] + SourcesIn([]);
  }

  /** A tool output made of one header line names exactly that line's source. */
  lemma HeaderLineCites(src: string, rest: string)
    requires CitableSource(src) && '-' !in src && '-' !in rest
    ensures ExtractSources("[" + src + HEADER_DELIMITER + rest) == [src]
  {
    var line := "[" + src + HEADER_DELIMITER + rest;
    DashFreeHeader(src, rest);
    SplitJoin([line], SEPARATOR);
    CitedSourceOfHeader(src, rest);
    assert SourcesIn([line]) == [CitedSource(line)] + SourcesIn([]);
  }

  /** A tool output made of two header lines names both sources, in order. */
  lemma TwoHeaderLinesCite(src: string, rest: string, src': string, rest': string)
    requires CitableSource(src) && '-' !in src && '-' !in rest
    requires CitableSource(src') && '-' !in src' && '-' !in rest'
    ensures ExtractSources(Join(["[" + src + HEADER_DELIMITER + rest, "[" + src' + HEADER_DELIMITER + rest'], SEPARATOR))
      == [src, src']
  {
    var line, line' := "[" + src + HEADER_DELIMITER + rest, "[" + src' + HEADER_DELIMITER + rest';
    DashFreeHeader(src, rest);
    DashFreeHeader(src', rest');
    SplitJoin([line, line'], SEPARATOR);
    CitedSourceOfHeader(src, rest);
    CitedSourceOfHeader(src', rest');
    SourcesInTwo(line, line');
  }

  /** The restriction on blocks cannot be dropped: a snippet that holds the
      separator followed by a header-like line makes the parser cite two names
      for one retrieved document, the second being the name in that line,
      when both names are citable, the page content fits in 500 characters,
      and none of the pieces holds '-'. */
  lemma SeparatorInSnippetAddsCitation(doc: RetrievedDocument, before: string, other: string, rest: string)
    requires doc.pageContent == before + SEPARATOR + "[" + other + HEADER_DELIMITER + rest
    requires |doc.pageContent| <= SNIPPET_LIMIT
    requires CitableSource(SourceOf(doc)) && CitableSource(other)
    requires '-' !in SourceOf(doc) && '-' !in CategoryOf(doc) && '-' !in before
    requires '-' !in other && '-' !in rest
    ensures Sources([doc]) == [SourceOf(doc)]
    ensures ExtractSources(Serialise([doc])) == [SourceOf(doc), other]
  {
    var src, cat := SourceOf(doc), CategoryOf(doc);
    var head, tail := cat + "]\n" + before, rest + "\n";
    assert '-' !in head && '-' !in tail;
    assert Snippet(doc) == doc.pageContent;
    SerialiseOne(doc);
    BlockWithSeparator(src, cat, before, other, rest);
    TwoHeaderLinesCite(src, head, other, tail);
  }

  /** The block of a snippet holding the separator is two header lines joined by it. */
  lemma BlockWithSeparator(src: string, cat: string, before: string, other: string, rest: string)
    ensures "[" + src + HEADER_DELIMITER + cat + "]\n" + (before + SEPARATOR + "[" + other + HEADER_DELIMITER + rest) + "\n"
      == Join(["[" + src + HEADER_DELIMITER + (cat + "]\n" + before), "[" + other + HEADER_DELIMITER + (rest + "\n")], SEPARATOR)
  {
    JoinTwo("[" + src + HEADER_DELIMITER + (cat + "]\n" + before), "[" + other + HEADER_DELIMITER + (rest + "\n"), SEPARATOR);
  }

  /** The result for one document is that document's block. */
  lemma SerialiseOne(doc: RetrievedDocument)
    ensures Serialise([doc]) == Block(doc)
  {
    assert Blocks([doc]) == [Block(doc)];
  }

  /** Nor can the restriction on sources be weakened to "contains no ' | '":
      a source that ends in " |" is cited without that ending. */
  lemma TrailingBarIsCut(doc: RetrievedDocument, name: string)
    requires SourceOf(doc) == name + " |"
    requires '[' !in name && ']' !in name && '|' !in name
    requires '-' !in name && '-' !in CategoryOf(doc) && '-' !in Snippet(doc)
    ensures !Occurs(SourceOf(doc), HEADER_DELIMITER)
    ensures ExtractSources(Serialise([doc])) == [name]
  {
    EndsInBarHasNoDelimiter(name);
    var tail := CategoryOf(doc) + "]\n" + Snippet(doc) + "\n";
    assert '-' !in "| " + tail;
    SerialiseOne(doc);
    BlockHeader(doc);
    Regroup(name, tail);
    BarFreeIsCitable(name);
    HeaderLineCites(name, "| " + tail);
  }

  lemma Regroup(name: string, tail: string)
    ensures "[" + (name + " |") + HEADER_DELIMITER + tail == "[" + name + HEADER_DELIMITER + ("| " + tail)
  {
  }

  /** `name + " |"` holds no " | " when `name` holds no '|'. */
  lemma EndsInBarHasNoDelimiter(name: string)
    requires '|' !in name
    ensures !Occurs(name + " |", HEADER_DELIMITER)
  {
    var src := name + " |";
    forall j: nat
      ensures !MatchAt(src, HEADER_DELIMITER, j)
    {
      if j + 3 <= |src| {
        assert src[j..j + 3][1] == src[j + 1] != '|';
      }
    }
  }

  /** A text without '-' is separable at the block separator. */
  lemma DashFreeIsSeparable(p: string)
    requires '-' !in p
    ensures Separable(p, SEPARATOR)
  {
    var t := p + SEPARATOR;
    forall j: nat | j < |p|
      ensures !MatchAt(t, SEPARATOR, j)
    {
      if j + 5 <= |t| {
        assert t[j..j + 5][1] == t[j + 1] != '-';
      }
    }
  }

  /** Citing a run with one more step appends that step's contribution. */
  lemma CitationsSnoc(steps: seq<Step>, last: Step)
    ensures Citations(steps + [last]) == Citations(steps) + StepSources(last)
  {
    CitationsAppend(steps, [last]);
    CitationsSingle(last);
  }

  lemma CitationsSingle(step: Step)
    ensures Citations([step]) == StepSources(step)
  {
    var per := PerStep([step]);
    assert per[..|per| - 1] == [];
    assert Concat(per) == Concat(per[..|per| - 1]) + per[0];
  }

  /** The cited sources of consecutive runs of steps are concatenated. */
  lemma CitationsAppend(a: seq<Step>, b: seq<Step>)
    ensures Citations(a + b) == Citations(a) + Citations(b)
  {
    var per, pa, pb := PerStep(a + b), PerStep(a), PerStep(b);
    forall i | 0 <= i < |per|
      ensures per[i] == (pa + pb)[i]
    {
      if i < |a| {
        assert (a + b)[i] == a[i];
      } else {
        assert (a + b)[i] == b[i - |a|];
      }
    }
    assert per == pa + pb;
    ConcatAppend(pa, pb);
  }

  /** Steps of other tools cite nothing: without a search step there are no citations. */
  lemma OnlySearchStepsCite(steps: seq<Step>)
    requires forall i :: 0 <= i < |steps| ==> ToolName(steps[i]) != SEARCH_TOOL
    ensures Citations(steps) == []
  {
    ConcatOfEmpties(PerStep(steps));
  }
}

=== FILE: corpus.dfy ===
/** `load_knowledge_base` (rag/build_vectorstore.py): every `.txt` file under
    `knowledge/` is loaded, each loaded document's metadata is updated in place
    with the file's name, its directory's name and its path, and the documents
    are collected in file order. */
module Corpus {
  import opened Text

  /** Splitter configuration used when the corpus is indexed. */
  const CHUNK_SIZE: nat := 1000
  const CHUNK_OVERLAP: nat := 200
  const KNOWLEDGE_DIR := "knowledge"
  const TXT_SUFFIX := ".txt"

  /** A relative path, as its components. */
  datatype Path = Path(parts: seq<string>)

  /** `Path.name`: the final component. */
  function Name(p: Path): (name: string)
    ensures |p.parts| > 0 ==> name == p.parts[|p.parts| - 1]
  {
    if |p.parts| == 0 then "" else p.parts[|p.parts| - 1]
  }

  /** `Path.parent.name`: the name of the directory holding the file. */
  function ParentName(p: Path): (name: string)
    ensures |p.parts| >= 2 ==> name == p.parts[|p.parts| - 2]
  {
    if |p.parts| < 2 then "" else p.parts[|p.parts| - 2]
  }

  /** `str(path)` on a POSIX system. */
  function PathString(p: Path): (s: string)
    ensures |p.parts| > 0 ==> p.parts[0] <= s && EndsWith(s, Name(p))
    ensures |p.parts| >= 2 ==> p.parts[0] + "/" <= s
  {
    if |p.parts| > 0 then JoinEnds(p.parts, "/"); Join(p.parts, "/") else ""
  }

  /** The file lies somewhere below `knowledge/` and its name matches `*.txt`. */
  predicate IsKnowledgeTxt(p: Path)
    ensures IsKnowledgeTxt(p) ==> KNOWLEDGE_DIR + "/" <= PathString(p) && EndsWith(PathString(p), TXT_SUFFIX)
  {
    |p.parts| >= 2 && p.parts[0] == KNOWLEDGE_DIR && EndsWith(Name(p), TXT_SUFFIX)
  }

  /** The three entries the loader writes into a document's metadata. */
  function Provenance(p: Path): (m: map<string, string>)
    ensures m.Keys == {"source", "category", "file_path"}
  {
    map["source" := Name(p), "category" := ParentName(p), "file_path" := PathString(p)]
  }

  /** `metadata.update(...)` with the provenance of `p`: the three entries are
      set from the path and every other entry is kept. */
  function Tagged(metadata: map<string, string>, p: Path): (m: map<string, string>)
    ensures m.Keys == metadata.Keys + {"source", "category", "file_path"}
    ensures m["source"] == Name(p) && m["category"] == ParentName(p) && m["file_path"] == PathString(p)
    ensures forall key :: key in metadata && key !in {"source", "category", "file_path"} ==> m[key] == metadata[key]
  {
    metadata + Provenance(p)
  }

  /** A loaded document; its metadata is updated in place. */
  class Document {
    var metadata: map<string, string>
    const pageContent: string

    constructor (metadata: map<string, string>, pageContent: string)
      ensures this.metadata == metadata && this.pageContent == pageContent
    {
      this.metadata := metadata;
      this.pageContent := pageContent;
    }
  }

  /** A file of the working tree and the documents `TextLoader(path).load()` gives for it. */
  datatype SourceFile = SourceFile(path: Path, loaded: seq<Document>)

  /** `Path("knowledge").rglob("*.txt")` over the files of the tree, in the given order. */
  function TxtFiles(files: seq<SourceFile>): (txt: seq<SourceFile>)
    ensures |txt| <= |files|
    ensures forall i :: 0 <= i < |txt| ==> IsKnowledgeTxt(txt[i].path)
  {
    if |files| == 0 then []
    else (if IsKnowledgeTxt(files[0].path) then [files[0]] else []) + TxtFiles(files[1..])
  }

  /** Every kept file is one of the given files. */
  lemma {:induction false} TxtFilesSound(files: seq<SourceFile>, i: nat)
    requires i < |TxtFiles(files)|
    ensures TxtFiles(files)[i] in files
  {
    var head := if IsKnowledgeTxt(files[0].path) then [files[0]] else [];
    assert TxtFiles(files) == head + TxtFiles(files[1..]);
    if i >= |head| {
      TxtFilesSound(files[1..], i - |head|);
    }
  }

  /** Every matching file is kept. */
  lemma {:induction false} TxtFilesComplete(files: seq<SourceFile>, i: nat)
    requires i < |files| && IsKnowledgeTxt(files[i].path)
    ensures files[i] in TxtFiles(files)
  {
    if i > 0 {
      TxtFilesComplete(files[1..], i - 1);
      assert files[1..][i - 1] == files[i];
    }
  }

  /** The document lists of the files, in file order. */
  function LoadedLists(files: seq<SourceFile>): (lists: seq<seq<Document>>)
    ensures |lists| == |files|
    ensures forall i :: 0 <= i < |files| ==> lists[i] == files[i].loaded
  {
    seq(|files|, i requires 0 <= i < |files| => files[i].loaded)
  }

  /** The documents one file loaded. */
  ghost function FileDocs(f: SourceFile): set<Document>
  {
    set j | 0 <= j < |f.loaded| :: f.loaded[j]
  }

  /** Every document the given files loaded. */
  ghost function LoadedDocs(files: seq<SourceFile>): set<Document>
  {
    set a, j | 0 <= a < |files| && 0 <= j < |files[a].loaded| :: files[a].loaded[j]
  }

  /** No document object is shared between two positions of the loaded lists:
      each load creates new document objects. */
  ghost predicate DistinctDocs(files: seq<SourceFile>)
  {
    forall a, j, b, k ::
      (0 <= a < |files| && 0 <= j < |files[a].loaded| && 0 <= b < |files| && 0 <= k < |files[b].loaded|
       && files[a].loaded[j] == files[b].loaded[k]) ==> a == b && j == k
  }

  /** The sum of the per-file document counts. */
  function TotalCount(lists: seq<seq<Document>>): nat
  {
    if |lists| == 0 then 0 else TotalCount(lists[..|lists| - 1]) + |lists[|lists| - 1]|
  }

  /** The loop body of `load_knowledge_base`: tag every document of one file. */
  method TagFile(f: SourceFile)
    requires forall j, k :: 0 <= j < |f.loaded| && 0 <= k < |f.loaded| && f.loaded[j] == f.loaded[k] ==> j == k
    modifies FileDocs(f)
    ensures forall j :: 0 <= j < |f.loaded| ==> f.loaded[j].metadata == Tagged(old(f.loaded[j].metadata), f.path)
  {
    var category := ParentName(f.path);
    var source := Name(f.path);
    for j := 0 to |f.loaded|
      invariant forall i :: 0 <= i < |f.loaded| ==>
        f.loaded[i].metadata == if i < j then Tagged(old(f.loaded[i].metadata), f.path) else old(f.loaded[i].metadata)
    {
      var doc := f.loaded[j];
      doc.metadata := doc.metadata + map["source" := source, "category" := category, "file_path" := PathString(f.path)];
    }
  }

  /** `load_knowledge_base`, over the files of the working tree. Every document of
      a matching file is tagged with that file's provenance, documents of other
      files are left alone, and the result lists the matching files' documents
      file by file. */
  method LoadKnowledgeBase(files: seq<SourceFile>) returns (docs: seq<Document>)
    requires DistinctDocs(TxtFiles(files))
    modifies LoadedDocs(TxtFiles(files))
    ensures docs == Concat(LoadedLists(TxtFiles(files)))
    ensures var txt := TxtFiles(files);
      forall a, j :: 0 <= a < |txt| && 0 <= j < |txt[a].loaded| ==>
        txt[a].loaded[j].metadata == Tagged(old(txt[a].loaded[j].metadata), txt[a].path)
  {
    var txt := TxtFiles(files);
    docs := TagAndCollect(txt);
  }

  /** The loop of `load_knowledge_base` over the matching files, in the order
      `rglob` yields them: tag each file's documents, then extend the result by them. */
  method TagAndCollect(txt: seq<SourceFile>) returns (docs: seq<Document>)
    requires DistinctDocs(txt)
    modifies LoadedDocs(txt)
    ensures docs == Concat(LoadedLists(txt))
    ensures forall a, j :: 0 <= a < |txt| && 0 <= j < |txt[a].loaded| ==>
      txt[a].loaded[j].metadata == Tagged(old(txt[a].loaded[j].metadata), txt[a].path)
  {
    docs := [];
    for a := 0 to |txt|
      invariant docs == Concat(LoadedLists(txt[..a]))
      invariant forall b, j :: 0 <= b < |txt| && 0 <= j < |txt[b].loaded| ==>
        txt[b].loaded[j].metadata == if b < a then Tagged(old(txt[b].loaded[j].metadata), txt[b].path) else old(txt[b].loaded[j].metadata)
    {
      var f := txt[a];
      FileDocsAreLoaded(txt, a);
      label BeforeTagging:
      TagFile(f);
      forall b, j | 0 <= b < |txt| && 0 <= j < |txt[b].loaded|
        ensures txt[b].loaded[j].metadata
          == if b < a + 1 then Tagged(old(txt[b].loaded[j].metadata), txt[b].path) else old(txt[b].loaded[j].metadata)
      {
        if b != a {
          OtherFileDoc(txt, a, b, j);
          assert txt[b].loaded[j].metadata == old@BeforeTagging(txt[b].loaded[j].metadata);
        }
      }
      docs := docs + f.loaded;
      ConcatStep(txt, a);
    }
    assert txt[..|txt|] == txt;
  }

  /** The documents of file `a` are among the loaded documents, each at one position only. */
  lemma FileDocsAreLoaded(txt: seq<SourceFile>, a: nat)
    requires a < |txt| && DistinctDocs(txt)
    ensures FileDocs(txt[a]) <= LoadedDocs(txt)
    ensures forall j, k :: 0 <= j < |txt[a].loaded| && 0 <= k < |txt[a].loaded| && txt[a].loaded[j] == txt[a].loaded[k] ==> j == k
  {
  }

  /** A document of another file is not one of the documents of file `a`. */
  lemma OtherFileDoc(txt: seq<SourceFile>, a: nat, b: nat, j: nat)
    requires a < |txt| && b < |txt| && a != b && j < |txt[b].loaded| && DistinctDocs(txt)
    ensures txt[b].loaded[j] !in FileDocs(txt[a])
  {
  }

  /** Extending by the next file's documents continues the concatenation. */
  lemma ConcatStep(txt: seq<SourceFile>, a: nat)
    requires a < |txt|
    ensures Concat(LoadedLists(txt[..a + 1])) == Concat(LoadedLists(txt[..a])) + txt[a].loaded
  {
    var lists := LoadedLists(txt[..a + 1]);
    assert lists[..|lists| - 1] == LoadedLists(txt[..a]);
  }

  /** The result holds as many documents as the files loaded, summed over the files. */
  lemma {:induction false} ConcatCount(lists: seq<seq<Document>>)
    ensures |Concat(lists)| == TotalCount(lists)
  {
    if |lists| > 0 {
      ConcatCount(lists[..|lists| - 1]);
    }
  }

  /** Only matching files contribute: every collected document was loaded from
      a `.txt` file below `knowledge/`, the file at index `i` of the tree. */
  lemma OnlyKnowledgeTxtContributes(files: seq<SourceFile>, d: Document) returns (i: nat)
    requires d in Concat(LoadedLists(TxtFiles(files)))
    ensures i < |files| && IsKnowledgeTxt(files[i].path) && d in files[i].loaded
  {
    var txt := TxtFiles(files);
    var lists := LoadedLists(txt);
    ConcatMember(lists, d);
    var a :| 0 <= a < |lists| && d in lists[a];
    TxtFilesSound(files, a);
    i :| 0 <= i < |files| && files[i] == txt[a];
  }

  /** The overlap is positive and smaller than the chunk size, as the splitter requires. */
  lemma ChunkConfigValid()
    ensures 0 < CHUNK_OVERLAP < CHUNK_SIZE
  {
  }
}

=== FILE: extract.dfy ===
/** The `extract_requirements` tool (tools/extract.py): the RFP text, cut to
    10000 characters, is handed to a structured-output extractor; its record is
    returned as a dictionary of seven fields, or, when it raises, an error
    dictionary holding the first 500 characters of the text. */
module Extract {
  import opened Wrappers
  import opened Text
  import opened JsonValue

  /** At most this many characters of the RFP reach the extractor. */
  const INPUT_LIMIT: nat := 10000
  /** The fallback keeps this many characters of the RFP. */
  const RAW_TEXT_LIMIT: nat := 500

  /** The structured output the extractor is asked for. */
  datatype RfpRequirements = RfpRequirements(
    client: string,
    projectType: string,
    scope: string,
    budgetRange: string,
    timeline: string,
    submissionDeadline: string,
    keyRequirements: seq<string>)

  const FIELDS: set<string> :=
    {"client", "project_type", "scope", "budget_range", "timeline", "submission_deadline", "key_requirements"}
  const FALLBACK_FIELDS: set<string> := {"error", "raw_text"}

  /** A list of strings as a JSON value. */
  function Strings(items: seq<string>): (v: Value)
    ensures v.JArray? && |v.items| == |items|
    ensures forall i :: 0 <= i < |items| ==> v.items[i] == JString(items[i])
  {
    JArray(seq(|items|, i requires 0 <= i < |items| => JString(items[i])))
  }

  /** The record as a dictionary (pydantic's `.dict()`), one entry per field. */
  function ToDict(r: RfpRequirements): (d: map<string, Value>)
    ensures d.Keys == FIELDS
  {
    map[
      "client" := JString(r.client),
      "project_type" := JString(r.projectType),
      "scope" := JString(r.scope),
      "budget_range" := JString(r.budgetRange),
      "timeline" := JString(r.timeline),
      "submission_deadline" := JString(r.submissionDeadline),
      "key_requirements" := Strings(r.keyRequirements)]
  }

  /** The text the extractor sees: `rfp_text[:10000]`. */
  function ExtractorInput(rfpText: string): (t: string)
    ensures |t| <= INPUT_LIMIT && t <= rfpText
    ensures |rfpText| <= INPUT_LIMIT ==> t == rfpText
  {
    Take(rfpText, INPUT_LIMIT)
  }

  /** The dictionary returned when the extractor raises with `message`. */
  function Fallback(rfpText: string, message: string): (d: map<string, Value>)
    ensures d.Keys == FALLBACK_FIELDS
    ensures d["error"] == JString(message)
    ensures d["raw_text"].JString? && |d["raw_text"].s| <= RAW_TEXT_LIMIT
    ensures d["raw_text"].s <= rfpText
    ensures |d["raw_text"].s| == if |rfpText| < RAW_TEXT_LIMIT then |rfpText| else RAW_TEXT_LIMIT
  {
    map["error" := JString(message), "raw_text" := JString(Take(rfpText, RAW_TEXT_LIMIT))]
  }

  /** The tool's result. `extractor` is the prompt piped into the structured-output LLM. */
  function ExtractRequirements(rfpText: string, extractor: string -> Outcome<RfpRequirements>): (d: map<string, Value>)
    ensures d.Keys == FIELDS || d.Keys == FALLBACK_FIELDS
    ensures extractor(ExtractorInput(rfpText)).Returned? ==> d == ToDict(extractor(ExtractorInput(rfpText)).value)
    ensures extractor(ExtractorInput(rfpText)).Raised? ==> d == Fallback(rfpText, extractor(ExtractorInput(rfpText)).message)
  {
    match extractor(ExtractorInput(rfpText))
    case Returned(r) => ToDict(r)
    case Raised(message) => Fallback(rfpText, message)
  }

  /** The schema has exactly seven fields. */
  lemma SevenFields()
    ensures |FIELDS| == 7
  {
  }

  /** Whatever the extractor does, the result is never an empty dictionary. */
  lemma NeverEmpty(rfpText: string, extractor: string -> Outcome<RfpRequirements>)
    ensures |ExtractRequirements(rfpText, extractor)| > 0
  {
    var d := ExtractRequirements(rfpText, extractor);
    assert "client" in d.Keys || "error" in d.Keys;
  }

  /** The list of strings is recovered from its JSON value. */
  lemma StringsInjective(a: seq<string>, b: seq<string>)
    requires Strings(a) == Strings(b)
    ensures a == b
  {
    assert |a| == |b|;
    forall i | 0 <= i < |a|
      ensures a[i] == b[i]
    {
      assert Strings(a).items[i] == JString(a[i]);
      assert Strings(b).items[i] == JString(b[i]);
    }
  }

  /** No field is lost in the dictionary: distinct records give distinct dictionaries. */
  lemma ToDictInjective(a: RfpRequirements, b: RfpRequirements)
    requires ToDict(a) == ToDict(b)
    ensures a == b
  {
    assert ToDict(a)["client"] == JString(a.client);
    assert ToDict(a)["project_type"] == JString(a.projectType);
    assert ToDict(a)["scope"] == JString(a.scope);
    assert ToDict(a)["budget_range"] == JString(a.budgetRange);
    assert ToDict(a)["timeline"] == JString(a.timeline);
    assert ToDict(a)["submission_deadline"] == JString(a.submissionDeadline);
    assert ToDict(a)["key_requirements"] == Strings(a.keyRequirements);
    assert ToDict(b)["key_requirements"] == Strings(b.keyRequirements);
    StringsInjective(a.keyRequirements, b.keyRequirements);
  }

  /** Two prefixes of one text agree on their common length. */
  lemma TakeOfTake<T>(s: seq<T>, m: nat, n: nat)
    requires m <= n
    ensures Take(Take(s, n), m) == Take(s, m)
  {
  }

  /** Only the first 10000 characters matter: two texts that agree on them get the same result. */
  lemma OnlyPrefixMatters(a: string, b: string, extractor: string -> Outcome<RfpRequirements>)
    requires ExtractorInput(a) == ExtractorInput(b)
    ensures ExtractRequirements(a, extractor) == ExtractRequirements(b, extractor)
  {
    TakeOfTake(a, RAW_TEXT_LIMIT, INPUT_LIMIT);
    TakeOfTake(b, RAW_TEXT_LIMIT, INPUT_LIMIT);
  }
}

=== FILE: generate.dfy ===
/** The `generate_response` tool (tools/generate.py): the guard in front of the
    drafting chain. The requirements argument is normalised to a JSON value,
    a falsy result stops the tool with a fixed message, an absent context is
    defaulted, and an exception raised by the chain becomes a string. */
module Generate {
  import opened Wrappers
  import opened Text
  import opened JsonValue

  const EMPTY_REQUIREMENTS := "ERROR: `requirements` is empty. Did you call `extract_requirements` first?"
  const INVALID_FORMAT := "Invalid requirements format"
  /** The unparseable text is kept, cut to this many characters. */
  const RAW_LIMIT: nat := 200
  const NO_CONTEXT := "No context provided."
  const FAILED_PREFIX := "Generation failed: "

  /** The `requirements` argument as it arrives: a dictionary, a string, or
      anything else. */
  datatype Argument =
    | DictArg(fields: map<string, Value>)
    | StrArg(text: string)
    | OtherArg

  /** What the drafting chain receives: the response template, the context and
      the requirements (the chain sees them serialised by `json.dumps`). */
  datatype ChainInput = ChainInput(template: string, context: string, requirements: Value)

  /** The error dictionary that stands in for text `json.loads` rejects. */
  function InvalidFormat(text: string): (v: Value)
    ensures v.JObject? && v.fields.Keys == {"error", "raw"}
    ensures v.fields["error"] == JString(INVALID_FORMAT)
    ensures v.fields["raw"].JString? && |v.fields["raw"].s| <= RAW_LIMIT
    ensures v.fields["raw"].s <= text
    ensures |text| <= RAW_LIMIT ==> v.fields["raw"].s == text
  {
    JObject(map["error" := JString(INVALID_FORMAT), "raw" := JString(Take(text, RAW_LIMIT))])
  }

  /** The requirements after normalisation. `loads` is `json.loads`, with
      `None` for text it rejects: a dictionary passes through, a string is
      parsed (or replaced by the error dictionary), anything else becomes `{}`. */
  function Normalise(arg: Argument, loads: string -> Option<Value>): (req: Value)
    ensures arg.DictArg? ==> req == JObject(arg.fields)
    ensures arg.OtherArg? ==> req == JObject(map[])
    ensures arg.StrArg? && loads(arg.text).Some? ==> req == loads(arg.text).value
    ensures arg.StrArg? && loads(arg.text).None? ==> Truthy(req)
  {
    match arg
    case DictArg(fields) => JObject(fields)
    case StrArg(text) =>
      (match loads(text)
       case Some(v) => v
       case None => InvalidFormat(text))
    case OtherArg => JObject(map[])
  }

  /** Python's `context or "No context provided."`, with `None` for a missing context. */
  function DefaultContext(context: Option<string>): (c: string)
    ensures c != ""
    ensures context.Some? && context.value != "" ==> c == context.value
    ensures context.None? || context.value == "" ==> c == NO_CONTEXT
  {
    match context
    case Some(text) => if text != "" then text else NO_CONTEXT
    case None => NO_CONTEXT
  }

  /** What the chain is invoked with, or `None` when the guard stops the tool
      before the chain is built. */
  function ChainRequest(arg: Argument, context: Option<string>, template: string,
                        loads: string -> Option<Value>): (inp: Option<ChainInput>)
    ensures inp.None? <==> !Truthy(Normalise(arg, loads))
    ensures inp.Some? ==> inp.value.requirements == Normalise(arg, loads)
    ensures inp.Some? ==> inp.value.context == DefaultContext(context) && inp.value.template == template
  {
    var requirements := Normalise(arg, loads);
    if !Truthy(requirements) then None
    else Some(ChainInput(template, DefaultContext(context), requirements))
  }

  /** The tool's result. `template` is the response template read at import
      time; `chain` is the prompt piped into the LLM, which either returns the
      drafted text or raises. */
  function GenerateResponse(arg: Argument, context: Option<string>, template: string,
                            loads: string -> Option<Value>,
                            chain: ChainInput -> Outcome<string>): (r: string)
    ensures !Truthy(Normalise(arg, loads)) ==> r == EMPTY_REQUIREMENTS
    ensures Truthy(Normalise(arg, loads)) ==>
      var inp := ChainInput(template, DefaultContext(context), Normalise(arg, loads));
      match chain(inp)
      case Returned(text) => r == text
      case Raised(message) => r == FAILED_PREFIX + message
  {
    match ChainRequest(arg, context, template, loads)
    case None => EMPTY_REQUIREMENTS
    case Some(inp) =>
      (match chain(inp)
       case Returned(text) => text
       case Raised(message) => FAILED_PREFIX + message)
  }

  /** An empty dictionary stops the tool with the fixed message and the chain is never built. */
  lemma EmptyDictShortCircuits(context: Option<string>, template: string,
                               loads: string -> Option<Value>, chain: ChainInput -> Outcome<string>)
    ensures ChainRequest(DictArg(map[]), context, template, loads).None?
    ensures GenerateResponse(DictArg(map[]), context, template, loads, chain) == EMPTY_REQUIREMENTS
  {
  }

  /** An argument that is neither a dictionary nor a string becomes `{}` and meets the same guard. */
  lemma OtherArgShortCircuits(context: Option<string>, template: string,
                              loads: string -> Option<Value>, chain: ChainInput -> Outcome<string>)
    ensures ChainRequest(OtherArg, context, template, loads).None?
    ensures GenerateResponse(OtherArg, context, template, loads, chain) == EMPTY_REQUIREMENTS
  {
  }

  /** A string that parses to a falsy value (`{}`, `[]`, `""`, `0`, `false`, `null`) meets the same guard. */
  lemma FalsyParseShortCircuits(text: string, context: Option<string>, template: string,
                                loads: string -> Option<Value>, chain: ChainInput -> Outcome<string>)
    requires loads(text).Some? && !Truthy(loads(text).value)
    ensures ChainRequest(StrArg(text), context, template, loads).None?
    ensures GenerateResponse(StrArg(text), context, template, loads, chain) == EMPTY_REQUIREMENTS
  {
  }

  /** Unparseable text is never stopped by the guard: the chain receives the
      error dictionary, whose `raw` entry is a prefix of the text of at most 200 characters. */
  lemma UnparseableProceeds(text: string, context: Option<string>, template: string,
                            loads: string -> Option<Value>)
    requires loads(text).None?
    ensures ChainRequest(StrArg(text), context, template, loads)
      == Some(ChainInput(template, DefaultContext(context), InvalidFormat(text)))
    ensures var raw := InvalidFormat(text).fields["raw"].s;
      |raw| <= RAW_LIMIT && raw <= text
  {
  }

  /** A non-empty dictionary reaches the chain unchanged. */
  lemma DictPassesThrough(fields: map<string, Value>, context: Option<string>, template: string,
                          loads: string -> Option<Value>)
    requires |fields| > 0
    ensures ChainRequest(DictArg(fields), context, template, loads)
      == Some(ChainInput(template, DefaultContext(context), JObject(fields)))
  {
  }
}

=== FILE: jsonvalue.dfy ===
/** Decoded JSON values, as Python's `json.loads` produces them and as tool
    arguments arrive, with Python's truthiness on them. */
module JsonValue {

  /** JSON numbers are modelled as reals (Python gives an `int` or a `float`). */
  datatype Value =
    | JNull
    | JBool(b: bool)
    | JNumber(n: real)
    | JString(s: string)
    | JArray(items: seq<Value>)
    | JObject(fields: map<string, Value>)

  /** Python's `bool(v)`: `None`, `False`, zero and empty containers are false. */
  predicate Truthy(v: Value)
    ensures !Truthy(v) <==> v in {JNull, JBool(false), JNumber(0.0), JString(""), JArray([]), JObject(map[])}
  {
    match v
    case JNull => false
    case JBool(b) => b
    case JNumber(n) => n != 0.0
    case JString(s) => |s| > 0
    case JArray(items) => |items| > 0
    case JObject(fields) => |fields| > 0
  }
}

=== FILE: pipeline.dfy ===
/** Facts that connect the pipeline's stages: what extraction hands to
    generation, and what the audit records of the search tool's results. */
module Pipeline {
  import opened Wrappers
  import opened Text
  import opened JsonValue
  import opened Search
  import opened Audit
  import Extract
  import Generate
  import Corpus

  /** The extraction result, success or fallback, is never empty, so when the
      agent passes it to `generate_response` the empty-requirements guard never
      fires and the chain is invoked with it. */
  lemma ExtractionReachesChain(rfpText: string, extractor: string -> Outcome<Extract.RfpRequirements>,
                               context: Option<string>, template: string, loads: string -> Option<Value>)
    ensures var d := Extract.ExtractRequirements(rfpText, extractor);
      Generate.ChainRequest(Generate.DictArg(d), context, template, loads)
        == Some(Generate.ChainInput(template, Generate.DefaultContext(context), JObject(d)))
  {
    Extract.NeverEmpty(rfpText, extractor);
  }

  /** The step the agent records when it calls the search tool on a ranking. */
  function SearchStep(docs: seq<RetrievedDocument>): (step: Step)
    ensures ToolName(step) == SEARCH_TOOL
  {
    Step(SEARCH_TOOL, Serialise(docs))
  }

  /** The documents of a search whose sources are all citable and whose blocks
      hold no separator, so that the audit parses the result back exactly. */
  predicate CitableRun(docs: seq<RetrievedDocument>)
  {
    (forall i :: 0 <= i < |docs| ==> CitableSource(SourceOf(docs[i])))
    && (forall i :: 0 <= i < |docs| ==> !Occurs(Block(docs[i]), SEPARATOR))
  }

  /** One search step per ranking, in order. */
  function SearchSteps(runs: seq<seq<RetrievedDocument>>): (steps: seq<Step>)
    ensures |steps| == |runs|
    ensures forall r :: 0 <= r < |runs| ==> steps[r] == SearchStep(runs[r])
  {
    seq(|runs|, r requires 0 <= r < |runs| => SearchStep(runs[r]))
  }

  /** The sources of each ranking, in order. */
  function SourceLists(runs: seq<seq<RetrievedDocument>>): (lists: seq<seq<string>>)
    ensures |lists| == |runs|
    ensures forall r :: 0 <= r < |runs| ==> lists[r] == Sources(runs[r])
  {
    seq(|runs|, r requires 0 <= r < |runs| => Sources(runs[r]))
  }

  /** The audit of a run made only of search steps cites, search by search and
      in order, the sources of the documents each search returned. */
  lemma {:induction false} SearchRunsCited(runs: seq<seq<RetrievedDocument>>)
    requires forall r :: 0 <= r < |runs| ==> CitableRun(runs[r])
    ensures Citations(SearchSteps(runs)) == Concat(SourceLists(runs))
  {
    if |runs| > 0 {
      var n := |runs| - 1;
      var steps, lists := SearchSteps(runs), SourceLists(runs);
      SearchRunsCited(runs[..n]);
      SearchStepsSnoc(runs);
      assert lists[..n] == SourceLists(runs[..n]);
      CitationsSnoc(SearchSteps(runs[..n]), SearchStep(runs[n]));
      CitationRoundTrip(runs[n]);
      assert StepSources(SearchStep(runs[n])) == Sources(runs[n]);
      assert Citations(steps) == Concat(SourceLists(runs[..n])) + Sources(runs[n]);
      assert Concat(lists) == Concat(lists[..n]) + lists[n];
    } else {
      assert PerStep(SearchSteps(runs)) == [];
      assert SourceLists(runs) == [];
    }
  }

  /** The search steps of a list of rankings with one more ranking appended. */
  lemma SearchStepsSnoc(runs: seq<seq<RetrievedDocument>>)
    requires |runs| > 0
    ensures SearchSteps(runs) == SearchSteps(runs[..|runs| - 1]) + [SearchStep(runs[|runs| - 1])]
  {
    var n := |runs| - 1;
    var steps, init := SearchSteps(runs), SearchSteps(runs[..n]) + [SearchStep(runs[n])];
    forall r | 0 <= r < |runs|
      ensures steps[r] == init[r]
    {
      if r < n {
        assert runs[..n][r] == runs[r];
        assert init[r] == SearchSteps(runs[..n])[r];
      } else {
        assert init[r] == SearchStep(runs[n]);
      }
    }
  }

  /** Citations keep duplicates: the same search made twice is cited twice. */
  lemma RepeatedSearchCitedTwice(docs: seq<RetrievedDocument>)
    requires CitableRun(docs)
    ensures Citations([SearchStep(docs), SearchStep(docs)]) == Sources(docs) + Sources(docs)
  {
    assert [SearchStep(docs), SearchStep(docs)] == [SearchStep(docs)] + [SearchStep(docs)];
    CitationsSnoc([SearchStep(docs)], SearchStep(docs));
    CitationsSingle(SearchStep(docs));
    CitationRoundTrip(docs);
  }

  /** A document the corpus loader tagged from file `p`, once retrieved, opens
      its block with a header naming the file and its directory, and the audit
      cites the file's name for it. */
  lemma TaggedDocumentCitesItsFile(metadata: map<string, string>, content: string, p: Corpus.Path)
    requires CitableSource(Corpus.Name(p))
    requires !Occurs(Block(RetrievedDocument(Corpus.Tagged(metadata, p), content)), SEPARATOR)
    ensures var doc := RetrievedDocument(Corpus.Tagged(metadata, p), content);
      Block(doc) == "[" + Corpus.Name(p) + HEADER_DELIMITER + Corpus.ParentName(p) + "]\n" + Snippet(doc) + "\n"
      && ExtractSources(Serialise([doc])) == [Corpus.Name(p)]
  {
    var doc := RetrievedDocument(Corpus.Tagged(metadata, p), content);
    assert SourceOf(doc) == Corpus.Name(p) && CategoryOf(doc) == Corpus.ParentName(p);
    CitationRoundTrip([doc]);
    assert Sources([doc]) == [SourceOf(doc)];
  }
}

=== FILE: search.dfy ===
/** The `search_knowledge` tool (tools/search.py): the documents the retriever
    returns are rendered, in order, as citation blocks joined by a separator. */
module Search {
  import opened Text

  /** The retriever is configured to return the top `K` documents. */
  const K: nat := 5
  /** Each snippet is cut to this many characters. */
  const SNIPPET_LIMIT: nat := 500
  const SEPARATOR := "\n---\n"
  const NO_KNOWLEDGE := "No relevant knowledge found."
  const UNKNOWN := "unknown"

  /** A document as the vector store hands it back: its metadata and its text. */
  datatype RetrievedDocument = RetrievedDocument(metadata: map<string, string>, pageContent: string)

  /** Python's `metadata.get(key, "unknown")`. */
  function MetadataOr(metadata: map<string, string>, key: string): (v: string)
    ensures key in metadata ==> v == metadata[key]
    ensures key !in metadata ==> v == UNKNOWN
  {
    if key in metadata then metadata[key] else UNKNOWN
  }

  function SourceOf(doc: RetrievedDocument): string
  {
    MetadataOr(doc.metadata, "source")
  }

  function CategoryOf(doc: RetrievedDocument): string
  {
    MetadataOr(doc.metadata, "category")
  }

  /** The part of the page content that is shown. */
  function Snippet(doc: RetrievedDocument): (s: string)
    ensures |s| == if |doc.pageContent| < SNIPPET_LIMIT then |doc.pageContent| else SNIPPET_LIMIT
    ensures s == doc.pageContent[..|s|]
  {
    Take(doc.pageContent, SNIPPET_LIMIT)
  }

  /** One citation block: a bracketed header naming source and category, then the snippet. */
  function Block(doc: RetrievedDocument): (b: string)
    ensures |b| == |SourceOf(doc)| + |CategoryOf(doc)| + |Snippet(doc)| + 7
    ensures b[0] == '[' && b[|b| - 1] == '\n'
  {
    "[" + SourceOf(doc) + " | " + CategoryOf(doc) + "]\n" + Snippet(doc) + "\n"
  }

  /** The blocks of `docs`, one per document, in order. */
  function Blocks(docs: seq<RetrievedDocument>): (bs: seq<string>)
    ensures |bs| == |docs|
  {
    seq(|docs|, i requires 0 <= i < |docs| => Block(docs[i]))
  }

  /** The sources the blocks of `docs` name, in order. */
  function Sources(docs: seq<RetrievedDocument>): (srcs: seq<string>)
    ensures |srcs| == |docs|
  {
    seq(|docs|, i requires 0 <= i < |docs| => SourceOf(docs[i]))
  }

  /** The tool's result for the retrieved documents `docs`. The sentinel is
      returned exactly when nothing was retrieved. */
  function Serialise(docs: seq<RetrievedDocument>): (r: string)
    ensures r == NO_KNOWLEDGE <==> |docs| == 0
  {
    if |docs| == 0 then NO_KNOWLEDGE
    else
      var r := Join(Blocks(docs), SEPARATOR);
      assert r[0] == Blocks(docs)[0][0] == '[';
      r
  }

  /** The tool body. `ranked` is the vector store's ranking of the corpus for
      the query; the retriever keeps its first `K` entries. */
  method SearchKnowledge(ranked: seq<RetrievedDocument>) returns (r: string)
    ensures r == Serialise(Take(ranked, K))
    ensures r == NO_KNOWLEDGE <==> |ranked| == 0
  {
    var docs := Take(ranked, K);
    var results: seq<string> := [];
    for i := 0 to |docs|
      invariant results == Blocks(docs[..i])
    {
      var doc := docs[i];
      var source := if "source" in doc.metadata then doc.metadata["source"] else UNKNOWN;
      var category := if "category" in doc.metadata then doc.metadata["category"] else UNKNOWN;
      var snippet := Take(doc.pageContent, SNIPPET_LIMIT);
      results := results + ["[" + source + " | " + category + "]\n" + snippet + "\n"];
      assert docs[..i + 1] == docs[..i] + [doc];
    }
    assert docs[..|docs|] == docs;
    r := if |results| > 0 then Join(results, SEPARATOR) else NO_KNOWLEDGE;
  }

  /** A block ends in a newline, so a separator can only start inside it, never
      straddle its end: if the block does not contain the separator, it is separable. */
  lemma BlockSeparable(b: string)
    requires |b| > 0 && b[|b| - 1] == '\n'
    requires !Occurs(b, SEPARATOR)
    ensures Separable(b, SEPARATOR)
  {
    var t := b + SEPARATOR;
    forall j: nat | j < |b|
      ensures !MatchAt(t, SEPARATOR, j)
    {
      if j + 5 <= |b| {
        assert t[j..j + 5] == b[j..j + 5];
        assert !MatchAt(b, SEPARATOR, j);
      } else if j + 5 <= |t| {
        var d := |b| - j;
        if d < 4 {
          assert t[j..j + 5][d] == t[|b|] == '\n' != SEPARATOR[d];
        } else {
          assert t[j..j + 5][3] == b[|b| - 1] == '\n' != SEPARATOR[3];
        }
      }
    }
  }

  /** Splitting the tool's result at the separator gives back the blocks, one
      per retrieved document and in the retriever's order, with no empty piece
      before the first or after the last; this needs only that no block contains
      the separator. */
  lemma {:induction false} BlocksInOrder(docs: seq<RetrievedDocument>)
    requires |docs| > 0
    requires forall i :: 0 <= i < |docs| ==> !Occurs(Block(docs[i]), SEPARATOR)
    ensures Split(Serialise(docs), SEPARATOR) == Blocks(docs)
  {
    var bs := Blocks(docs);
    forall i | 0 <= i < |bs|
      ensures Separable(bs[i], SEPARATOR)
    {
      BlockSeparable(bs[i]);
    }
    SplitJoin(bs, SEPARATOR);
  }

  /** The tool's result never holds more than `K` blocks. */
  lemma AtMostKBlocks(ranked: seq<RetrievedDocument>)
    requires |ranked| > 0
    requires forall i :: 0 <= i < |ranked| ==> !Occurs(Block(ranked[i]), SEPARATOR)
    ensures |Split(Serialise(Take(ranked, K)), SEPARATOR)| == if |ranked| < K then |ranked| else K
  {
    var docs := Take(ranked, K);
    assert forall i :: 0 <= i < |docs| ==> docs[i] == ranked[i];
    BlocksInOrder(docs);
  }
}

=== FILE: text.dfy ===
/** The Python string and list operations the pipeline relies on: slicing,
    `find`, `split`, `join`, `split(sep)[0]` and repeated `extend`, with the
    facts about them that the rest of the model needs. */
module Text {
  import opened Wrappers

  /** Python's slice `s[:n]`: the first `n` elements, or all of `s` when it is shorter. */
  function Take<T>(s: seq<T>, n: nat): (r: seq<T>)
    ensures |r| == if |s| < n then |s| else n
    ensures r == s[..|r|]
  {
    if |s| < n then s else s[..n]
  }

  /** Python's `s.endswith(suffix)`. */
  predicate EndsWith(s: string, suffix: string)
  {
    |suffix| <= |s| && s[|s| - |suffix|..] == suffix
  }

  /** `pat` occurs in `s` starting at index `i`. */
  predicate MatchAt(s: string, pat: string, i: nat)
  {
    i + |pat| <= |s| && s[i..i + |pat|] == pat
  }

  /** Python's `pat in s` for strings. */
  predicate Occurs(s: string, pat: string)
  {
    exists i: nat :: i <= |s| && MatchAt(s, pat, i)
  }

  /** The least index at or after `from` where `pat` occurs in `s`, if there is one. */
  function FindFrom(s: string, pat: string, from: nat): (r: Option<nat>)
    requires from <= |s|
    ensures r.Some? ==> from <= r.value && MatchAt(s, pat, r.value)
    ensures forall j: nat :: from <= j && (r.None? || j < r.value) ==> !MatchAt(s, pat, j)
    decreases |s| - from
  {
    if from + |pat| > |s| then None
    else if s[from..from + |pat|] == pat then Some(from)
    else FindFrom(s, pat, from + 1)
  }

  /** Python's `s.split(sep)` for a non-empty separator: the pieces between the
      leftmost non-overlapping occurrences of `sep`, scanning from the left. */
  function Split(s: string, sep: string): (parts: seq<string>)
    requires |sep| > 0
    ensures |parts| >= 1
    decreases |s|
  {
    match FindFrom(s, sep, 0)
    case None => [s]
    case Some(k) => [s[..k]] + Split(s[k + |sep|..], sep)
  }

  /** `s.split(sep)` is the one-element list `[s]` exactly when `sep` does not occur in `s`. */
  lemma SplitWhole(s: string, sep: string)
    requires |sep| > 0
    ensures |Split(s, sep)| == 1 <==> !Occurs(s, sep)
    ensures !Occurs(s, sep) ==> Split(s, sep) == [s]
  {
    match FindFrom(s, sep, 0)
    case None =>
      assert forall j: nat :: !MatchAt(s, sep, j);
    case Some(k) =>
      assert MatchAt(s, sep, k);
      assert |Split(s, sep)| == 1 + |Split(s[k + |sep|..], sep)|;
  }

  /** Python's `sep.join(parts)`. */
  function Join(parts: seq<string>, sep: string): (s: string)
    ensures |parts| > 0 && |parts[0]| > 0 ==> |s| > 0 && s[0] == parts[0][0]
  {
    if |parts| == 0 then ""
    else if |parts| == 1 then parts[0]
    else parts[0] + sep + Join(parts[1..], sep)
  }

  /** A join opens with its first part and ends with its last. */
  lemma {:induction false} JoinEnds(parts: seq<string>, sep: string)
    requires |parts| > 0
    ensures parts[0] <= Join(parts, sep)
    ensures EndsWith(Join(parts, sep), parts[|parts| - 1])
  {
    if |parts| > 1 {
      JoinEnds(parts[1..], sep);
      var rest := Join(parts[1..], sep);
      assert Join(parts, sep) == (parts[0] + sep) + rest;
    }
  }

  /** Python's `s.split(sep)[0]`: the text before the first occurrence of `sep`,
      or the whole of `s` when `sep` does not occur. */
  function Before(s: string, sep: string): (r: string)
    requires |sep| > 0
    ensures |r| <= |s| && r == s[..|r|]
    ensures forall j: nat :: j < |r| ==> !MatchAt(s, sep, j)
    ensures |r| == |s| || MatchAt(s, sep, |r|)
  {
    match FindFrom(s, sep, 0)
    case None => s
    case Some(k) => s[..k]
  }

  /** `Before` is the first piece of `Split`. */
  lemma BeforeIsFirstPiece(s: string, sep: string)
    requires |sep| > 0
    ensures Split(s, sep)[0] == Before(s, sep)
  {
  }

  /** In `a + sep`, the first occurrence of `sep` is the one that follows `a`:
      `sep` neither occurs inside `a` nor straddles the end of `a`. */
  predicate Separable(a: string, sep: string)
  {
    forall j: nat :: j < |a| ==> !MatchAt(a + sep, sep, j)
  }

  /** For one character, occurrence is membership. */
  lemma OccursChar(s: string, c: char)
    ensures Occurs(s, [c]) <==> c in s
  {
    if c in s {
      var i :| 0 <= i < |s| && s[i] == c;
      assert s[i..i + 1] == [c];
      assert MatchAt(s, [c], i);
    }
    forall i: nat | MatchAt(s, [c], i)
      ensures c in s
    {
      assert s[i] == s[i..i + 1][0];
    }
  }

  /** The text before the first separator does not contain the separator. */
  lemma BeforeHasNoSeparator(s: string, sep: string)
    requires |sep| > 0
    ensures !Occurs(Before(s, sep), sep)
  {
    var r := Before(s, sep);
    forall i: nat
      ensures !MatchAt(r, sep, i)
    {
      if i + |sep| <= |r| {
        assert r[i..i + |sep|] == s[..|r|][i..i + |sep|] == s[i..i + |sep|];
        assert !MatchAt(s, sep, i);
      }
    }
  }

  /** Splitting at a character that occurs gives at least two pieces; the second
      piece holds no further copy of the character, and when the text starts with
      the character the second piece is what precedes its next copy. */
  lemma SplitAtChar(s: string, c: char)
    requires c in s
    ensures |Split(s, [c])| >= 2
    ensures c !in Split(s, [c])[1]
    ensures s[0] == c ==> Split(s, [c])[1] == Before(s[1..], [c])
  {
    OccursChar(s, c);
    var i: nat :| MatchAt(s, [c], i);
    var k := FindFrom(s, [c], 0).value;
    assert Split(s, [c]) == [s[..k]] + Split(s[k + 1..], [c]);
    if s[0] == c {
      assert s[0..1] == [c];
      assert MatchAt(s, [c], 0);
      assert k == 0;
    }
    BeforeHasNoSeparator(s[k + 1..], [c]);
    OccursChar(Before(s[k + 1..], [c]), c);
  }

  /** `FindFrom` returns the first match at or after `from`. */
  lemma {:induction false} FindFirst(s: string, pat: string, from: nat, k: nat)
    requires from <= k && MatchAt(s, pat, k)
    requires forall j: nat :: from <= j < k ==> !MatchAt(s, pat, j)
    ensures FindFrom(s, pat, from) == Some(k)
    decreases k - from
  {
    if from < k {
      FindFirst(s, pat, from + 1, k);
    }
  }

  /** When `s` starts with `a + sep` and `a` is separable, the first occurrence
      of `sep` in `s` is at index `|a|`. */
  lemma FirstMatchAt(s: string, a: string, sep: string)
    requires |a| + |sep| <= |s| && s[..|a| + |sep|] == a + sep
    requires Separable(a, sep)
    ensures FindFrom(s, sep, 0) == Some(|a|)
  {
    var t := a + sep;
    assert s[|a|..|t|] == t[|a|..] == sep;
    assert MatchAt(s, sep, |a|);
    forall j: nat | j < |a|
      ensures !MatchAt(s, sep, j)
    {
      assert s[j..j + |sep|] == s[..|t|][j..j + |sep|] == t[j..j + |sep|];
      assert !MatchAt(t, sep, j);
    }
    FindFirst(s, sep, 0, |a|);
  }

  /** A separable text contains no copy of the separator. */
  lemma SeparableHasNoMatch(a: string, sep: string)
    requires |sep| > 0 && Separable(a, sep)
    ensures FindFrom(a, sep, 0) == None
  {
    forall j: nat
      ensures !MatchAt(a, sep, j)
    {
      if j + |sep| <= |a| {
        assert (a + sep)[j..j + |sep|] == a[j..j + |sep|];
        assert !MatchAt(a + sep, sep, j);
      }
    }
  }

  /** A text without the separator's first character contains no separator. */
  lemma NoMatchWithoutFirstChar(s: string, sep: string)
    requires |sep| > 0 && sep[0] !in s
    ensures FindFrom(s, sep, 0) == None
  {
    forall j: nat
      ensures !MatchAt(s, sep, j)
    {
      if j + |sep| <= |s| {
        assert s[j..j + |sep|][0] == s[j];
      }
    }
  }

  /** `s.split(sep)[0]` recovers `a` from any `s` that starts with `a + sep`. */
  lemma BeforeAtSeparator(s: string, a: string, sep: string)
    requires |sep| > 0
    requires |a| + |sep| <= |s| && s[..|a| + |sep|] == a + sep
    requires Separable(a, sep)
    ensures Before(s, sep) == a
  {
    FirstMatchAt(s, a, sep);
    assert s[..|a|] == (a + sep)[..|a|];
  }

  /** Cutting at a character keeps any prefix of `s` in which that character does not occur. */
  lemma BeforeKeepsPrefix(s: string, q: string, c: char)
    requires |q| <= |s| && s[..|q|] == q && c !in q
    ensures |q| <= |Before(s, [c])| && Before(s, [c])[..|q|] == q
  {
    forall j: nat | j < |q|
      ensures !MatchAt(s, [c], j)
    {
      assert s[j..j + 1] == [q[j]];
    }
  }

  /** Round trip, parse after format: splitting a join gives back its parts
      when every part is separable. */
  lemma {:induction false} SplitJoin(parts: seq<string>, sep: string)
    requires |sep| > 0 && |parts| > 0
    requires forall i :: 0 <= i < |parts| ==> Separable(parts[i], sep)
    ensures Split(Join(parts, sep), sep) == parts
  {
    if |parts| == 1 {
      SeparableHasNoMatch(parts[0], sep);
    } else {
      var s := Join(parts, sep);
      var rest := Join(parts[1..], sep);
      assert s == parts[0] + sep + rest;
      assert s[..|parts[0]| + |sep|] == parts[0] + sep;
      FirstMatchAt(s, parts[0], sep);
      assert s[..|parts[0]|] == parts[0];
      assert s[|parts[0]| + |sep|..] == rest;
      SplitJoin(parts[1..], sep);
      assert parts == [parts[0]] + parts[1..];
    }
  }

  /** A text is what precedes a match, the separator, and what follows it. */
  lemma SliceAround(s: string, k: nat, sep: string)
    requires MatchAt(s, sep, k)
    ensures s == s[..k] + sep + s[k + |sep|..]
  {
    assert s == s[..k] + s[k..k + |sep|] + s[k + |sep|..];
  }

  /** Joining two pieces puts one separator between them. */
  lemma JoinTwo(a: string, b: string, sep: string)
    ensures Join([a, b], sep) == a + sep + b
  {
    assert [a, b][1..] == [b];
  }

  /** Joining a head piece onto a non-empty tail puts one separator between them. */
  lemma JoinCons(a: string, tail: seq<string>, sep: string)
    requires |tail| > 0
    ensures Join([a] + tail, sep) == a + sep + Join(tail, sep)
  {
    assert ([a] + tail)[1..] == tail;
  }

  /** Round trip, format after parse: joining the pieces of a split with the
      same separator rebuilds the text exactly. */
  lemma {:induction false} JoinSplit(s: string, sep: string)
    requires |sep| > 0
    ensures Join(Split(s, sep), sep) == s
    decreases |s|
  {
    var found := FindFrom(s, sep, 0);
    if found.None? {
      assert Split(s, sep) == [s];
    } else {
      var k := found.value;
      var rest := s[k + |sep|..];
      JoinSplit(rest, sep);
      SliceAround(s, k, sep);
      var tail := Split(rest, sep);
      assert Split(s, sep) == [s[..k]] + tail;
      JoinCons(s[..k], tail, sep);
    }
  }

  /** The in-order concatenation of a list of lists (repeated `extend`). */
  function Concat<T>(xss: seq<seq<T>>): seq<T>
  {
    if |xss| == 0 then [] else Concat(xss[..|xss| - 1]) + xss[|xss| - 1]
  }

  /** Concatenation distributes over appending lists of lists. */
  lemma {:induction false} ConcatAppend<T>(xss: seq<seq<T>>, yss: seq<seq<T>>)
    ensures Concat(xss + yss) == Concat(xss) + Concat(yss)
    decreases |yss|
  {
    if |yss| == 0 {
      assert xss + yss == xss;
    } else {
      var init, last := yss[..|yss| - 1], yss[|yss| - 1];
      assert (xss + yss)[..|xss + yss| - 1] == xss + init;
      ConcatAppend(xss, init);
    }
  }

  /** Concatenating empty lists gives the empty list. */
  lemma {:induction false} ConcatOfEmpties<T>(xss: seq<seq<T>>)
    requires forall i :: 0 <= i < |xss| ==> xss[i] == []
    ensures Concat(xss) == []
  {
    if |xss| > 0 {
      ConcatOfEmpties(xss[..|xss| - 1]);
    }
  }

  /** An element of a concatenation comes from one of the concatenated lists. */
  lemma {:induction false} ConcatMember<T>(xss: seq<seq<T>>, x: T)
    requires x in Concat(xss)
    ensures exists i :: 0 <= i < |xss| && x in xss[i]
  {
    var init := xss[..|xss| - 1];
    if x !in xss[|xss| - 1] {
      ConcatMember(init, x);
      var i :| 0 <= i < |init| && x in init[i];
      assert xss[i] == init[i];
    }
  }
}

=== FILE: wrappers.dfy ===
/** Small value wrappers shared by the pipeline stages. */
module Wrappers {

  /** A value that may be absent (Python's `None`). */
  datatype Option<+T> = None | Some(value: T)

  /** What a call into an external capability (an LLM chain, a parser) gives back:
      either its value, or the message of the exception it raised. */
  datatype Outcome<+T> = Returned(value: T) | Raised(message: string)
}
